=== FILE: README.md ===
# Random quote machine: favorites and quote resolution in Dafny

This project models the sequential core of a single-page "quote of the moment"
widget. Two parts are covered:

- **Favorites** (`src/components/QuoteMachine.tsx`). The user keeps an ordered
  list of favorite quotes. Quotes are compared by value on `(text, author)`.
  The star button toggles the displayed quote in or out of the list. The
  favorites panel removes an entry. Every change writes the whole list to the
  storage slot `favorites` and shows a toast. Copying puts the attribution line
  `"<text>" — <author>` on the clipboard.
- **Quote source** (`src/hooks/useQuote.ts`). It has a 15-entry fallback corpus
  and a 12-colour palette. One `fetchQuote` call is modelled as a pure function.
  It takes the provider's response and the two random indices, and returns the
  next quote, colour and page-wide text colour.

Modules:

- `Quotes` (`quotes.dfy`): the `Quote` value type, its structural equality
  `Matches`, how a template literal renders a quote's text, and the attribution
  line.
- `Favorites` (`favorites.dfy`): membership (`some`) and filtering (`filter`) on
  `seq<Quote>`. It also has the subsequence, count, append and no-duplicates
  lemmas.
- `QuoteMachine` (`quote_machine.dfy`): the widget state record
  `(favorites, storage, toast)`, its transitions, and whole-session lemmas over
  a sequence of `Action`s.
- `QuoteSource` (`quote_source.dfy`): the corpus, the palette, the initial
  state, the response datatype and `FetchQuote`.

A quote's `text` is an `Option<string>`. `None` stands for JavaScript's
`undefined`. A 2xx body without a `content` field is not sent to the fallback
branch (`src/hooks/useQuote.ts:50-51`), so the displayed text is then
`undefined`. A template literal renders it as `"undefined"` (`Quotes.Rendered`).

Where the code does something a user might not expect, the model follows the code:

- The double-toggle round trip does not hold for every quote. If the quote is
  already a favorite, the first toggle removes it and the second appends it at
  the end, so it moves. `ToggleTwiceRestores` proves the round trip when the
  quote starts out absent. `ToggleTwiceFromFavorite` proves that, for a
  duplicate-free list, the result is otherwise a permutation with the quote
  moved last. `ToggleTwiceCanReorder` shows a concrete case. A list holding the
  quote twice is not restored even as a multiset: the first toggle drops both
  copies (`ToggleDropsEveryCopy`), so two toggles turn `[q, q]` into `[q]`.
- Stored data that does not parse is not treated as an empty list. `JSON.parse`
  at `src/components/QuoteMachine.tsx:15` is not guarded, so it throws. The
  model stores an already-parsed list (`Option<seq<Quote>>`) and does not model
  parse failure.
- The fetch has no timeout. A call that never completes changes nothing, so it
  has no transition in the model.
- A 2xx body without `content` is not treated as malformed. It yields a quote
  with undefined text and is not replaced by a fallback quote
  (`MissingContentNotRerouted`).

## Model

| member | source | states |
|---|---|---|
| `Quotes.Matches` | src/components/QuoteMachine.tsx:22-24 | comparing text and author field by field, as the membership test and both filters do, is the same as equality of the two quote values, so it is an equivalence relation |
| `Quotes.Rendered` | src/components/QuoteMachine.tsx:27 | interpolating a present text gives the text itself; interpolating undefined gives the 9-character word "undefined" |
| `Quotes.Attribution` | src/components/QuoteMachine.tsx:26-28 | the share line is an opening quotation mark, then the text, then a closing mark, then " — ", then the author; text and author can be read back at fixed positions and the length is their sum plus 5 |
| `Favorites.IsFavorite` | src/components/QuoteMachine.tsx:22-24 | the left-to-right scan is true iff some entry has the same text and the same author as the quote, which is the same as the quote being an element of the list |
| `Favorites.RemoveMatches` | src/components/QuoteMachine.tsx:39-41 | after filtering, the quote is no longer a favorite; the list never grows; it gets strictly shorter when there was a match, and is returned unchanged when there was none |
| `Favorites.RemoveMatchesMembers` | src/components/QuoteMachine.tsx:58-60 | an entry is in the filtered list iff it was in the input and does not match the removed quote |
| `Favorites.RemoveMatchesIsSubsequence` | src/components/QuoteMachine.tsx:58-60 | the filtered list is a subsequence of the input, so relative order is kept |
| `Favorites.RemoveMatchesCounts` | src/components/QuoteMachine.tsx:58-60 | the filter keeps every occurrence of every non-matching quote and no occurrence of the matching one |
| `Favorites.RemoveMatchesAppend` | src/components/QuoteMachine.tsx:39-44 | filtering a concatenation is the concatenation of the filtered parts |
| `Favorites.RemoveMatchesKeepsNoDuplicates` | src/components/QuoteMachine.tsx:58-60 | filtering a duplicate-free list leaves it duplicate-free |
| `Favorites.AppendKeepsNoDuplicates` | src/components/QuoteMachine.tsx:44 | appending a quote that is not yet a favorite to a duplicate-free list keeps it duplicate-free |
| `Favorites.NoDuplicatesCount` | src/components/QuoteMachine.tsx:22-24 | in a duplicate-free list a quote occurs once if it is a favorite, otherwise zero times |
| `QuoteMachine.LoadFavorites` | src/components/QuoteMachine.tsx:13-16 | an absent storage slot loads as the empty list; a present slot loads as its stored list |
| `QuoteMachine.Init` | src/components/QuoteMachine.tsx:13-20 | at mount, favorites are loaded from the slot (empty if absent), the slot is not written, the toast is empty and hidden, and memory agrees with storage |
| `QuoteMachine.ToggleFavorite` | src/components/QuoteMachine.tsx:36-50 | if the quote is not a favorite: it is appended, the old list is an unchanged prefix, the length grows by one, it is a favorite afterwards, and the toast says "Added to favorites". Otherwise: every match is removed, the rest keep their order and counts, it is no longer a favorite, and the toast says "Removed from favorites". Either way the slot holds the new list and the toast is visible |
| `QuoteMachine.RemoveFavorite` | src/components/QuoteMachine.tsx:57-65 | the result is a subsequence of the input with no entry equal to the removed quote, and every other entry keeps its count. If nothing matched, the list is unchanged. The slot holds the new list and the toast is always a visible "Removed from favorites" |
| `QuoteMachine.CopyToClipboard` | src/components/QuoteMachine.tsx:30-34 | the clipboard write is given the same string the share link encodes; the toast becomes a visible "Quote copied!"; favorites and storage are untouched |
| `QuoteMachine.DismissToast` | src/components/QuoteMachine.tsx:67-72 | closing hides the toast and changes nothing else |
| `QuoteMachine.Step` | src/components/QuoteMachine.tsx:30-65 | toggling and removing leave the storage slot holding the new list; copying and closing the toast leave the list and the slot unchanged |
| `QuoteMachine.Run` | src/components/QuoteMachine.tsx:30-65 | a session with no toggle or remove leaves the list and the slot unchanged; after a session that toggles or removes at least once, the slot holds the final list |
| `QuoteMachine.StepPreserves` | src/components/QuoteMachine.tsx:36-65 | each action keeps storage in step with memory and keeps the list duplicate-free |
| `QuoteMachine.ToggleKeepsNoDuplicates` | src/components/QuoteMachine.tsx:39-44 | toggling a duplicate-free list keeps it duplicate-free |
| `QuoteMachine.RemoveKeepsNoDuplicates` | src/components/QuoteMachine.tsx:58-60 | removing from a duplicate-free list keeps it duplicate-free |
| `QuoteMachine.RunPreserves` | src/components/QuoteMachine.tsx:47-62 | after any sequence of actions, storage still agrees with memory and no duplicate has appeared |
| `QuoteMachine.ReloadRestoresFavorites` | src/components/QuoteMachine.tsx:13-16 | when this widget instance is the only writer of the slot, a fresh start after any session from any slot loads exactly the list the session ended with, in order |
| `QuoteMachine.ToggleTwiceRestores` | src/components/QuoteMachine.tsx:36-50 | toggling a non-favorite twice gives back the original list, and the slot holds it |
| `QuoteMachine.ToggleTwiceFromFavorite` | src/components/QuoteMachine.tsx:38-46 | toggling a favorite twice in a duplicate-free list gives the list without it followed by it: the same entries (as a multiset), with the quote moved last |
| `QuoteMachine.ToggleRemovesExactlyOne` | src/components/QuoteMachine.tsx:38-42 | un-toggling a favorite in a duplicate-free list shortens it by exactly one |
| `QuoteMachine.ToggleDropsEveryCopy` | src/components/QuoteMachine.tsx:38-46 | without the no-duplicates convention the filter removes every copy: toggling q in [q, q] leaves the empty list, and toggling again gives [q] |
| `QuoteMachine.ToggleTwiceCanReorder` | src/components/QuoteMachine.tsx:38-46 | concretely, toggling q twice turns [q, p] into [p, q] |
| `QuoteSource.InitialState` | src/hooks/useQuote.ts:26-33 | the hook starts with the first corpus quote, the first palette colour, and no page colour applied |
| `QuoteSource.AuthorOf` | src/hooks/useQuote.ts:52 | the author is never empty. It is "Unknown" exactly when the name is missing, empty, or itself "Unknown". Any other author is the given name |
| `QuoteSource.QuoteOfBody` | src/hooks/useQuote.ts:50-53 | a successful body gives its content verbatim, present or not, and the defaulted, non-empty author |
| `QuoteSource.FetchQuote` | src/hooks/useQuote.ts:35-69 | every response sets a palette colour, at the chosen index, and applies it to the page. An ok response shows the body's quote. A non-ok status or thrown error shows the corpus entry at the chosen index |
| `QuoteSource.FallbackWellFormed` | src/hooks/useQuote.ts:8-32 | the constants `FallbackQuotes` and `Colors` transcribe the source lists: the corpus has 15 entries, each with a text and a non-empty author, and the palette has 12 colours, each `#` followed by six characters |
| `QuoteSource.InitialStateValid` | src/hooks/useQuote.ts:27-33 | the state before any fetch has a palette colour, no page colour yet, and a quote with a non-empty author |
| `QuoteSource.FetchKeepsValid` | src/hooks/useQuote.ts:35-69 | every completed fetch, whatever the response and whatever the previous state, leaves a valid state: a palette colour, a page colour equal to it, and a non-empty author |
| `QuoteSource.NotOkIsLikeThrown` | src/hooks/useQuote.ts:45 | a non-ok status gives exactly the result of a thrown error |
| `QuoteSource.FetchForgetsPrevious` | src/hooks/useQuote.ts:50-65 | the result does not depend on the previous state; both quote and colour are always replaced |
| `QuoteSource.FallbackCoversCorpus` | src/hooks/useQuote.ts:60-63 | every corpus quote and every palette colour can be reached on the failure path |
| `QuoteSource.MissingContentNotRerouted` | src/hooks/useQuote.ts:47-53 | an ok body without content gives a quote with undefined text, which is not a corpus entry |
| `QuoteSource.SuccessExamples` | src/hooks/useQuote.ts:50-53 | ("Hello", Alice) gives Alice; a missing originator or an empty name gives "Unknown" |

## Left out

- The network request, its headers and key, and `res.json()`. They are replaced by the `Response` datatype. A body that fails to parse, or parses to `null`, counts as `Thrown`.
- `Math.random`, which works in floating point. It is replaced by index parameters below the corpus and palette lengths.
- The diagnostic `console.error` on the fallback path, because it is output only.
- JSON serialisation of the storage slot, and the uncaught parse error on corrupt stored data. The slot holds an already-parsed list.
- `encodeURIComponent`, the share, search and encyclopedia URLs, and `window.open`, because they are browser builtins and navigation. Only the attribution line that the share link encodes is modelled (`Quotes.Attribution`).
- The clipboard API call itself. Only the string it receives is modelled.
- QuoteMachine.CopyToClipboard: the model assumes `navigator.clipboard` exists. It exists only on secure (HTTPS) pages. Where it is missing, `navigator.clipboard.writeText` throws at `src/components/QuoteMachine.tsx:31`, before the toast is set at lines 32-33, so no toast appears. Where it exists, the returned promise is neither awaited nor caught, so "Quote copied!" is shown whatever the write's outcome. `clipboard` is the string passed to `writeText`, not what the clipboard ends up holding.
- The 3-second dismissal timer and its cancellation, because they are timer-driven. Only their effect, hiding the toast, is modelled (`DismissToast`).
- Overlapping `fetchQuote` calls resolving out of order, stale React closures, mount effects, rendering, the favorites-panel show/hide button, and the keyboard handler on the author. These are UI and async plumbing.
- The `fav.author || 'Unknown'` fallback in the favorites panel (`src/components/QuoteMachine.tsx:108`), because it is display only.
- A `content` field that is `null` or not a string (`src/hooks/useQuote.ts:51`). `null` would render as "null" and would not equal a missing text, so it cannot share the `None` case. Only a present string or an absent field is modelled.
- A storage write that throws (`src/components/QuoteMachine.tsx:48, 62`), for example because the quota is exceeded or the browser is in private mode. In the source the in-memory list has already changed by then, storage keeps the old list, and no toast is shown. The model assumes every write succeeds, and `Synced`, `RunPreserves` and `ReloadRestoresFavorites` rely on that.
- Other writers of the storage slot. The widget reads the slot only at mount (`src/components/QuoteMachine.tsx:14`), writes it at lines 48 and 62, and does not listen for storage events, so a second tab that writes later wins. The model assumes this widget instance is the only writer. `Synced`, `RunPreserves` and `ReloadRestoresFavorites` rely on that.
- JavaScript strings are sequences of UTF-16 code units, while a Dafny `string` is a sequence of Unicode scalar values, so a text with a lone surrogate (for example from a `\ud800` escape in a response body) has no counterpart here. The core applies only equality and concatenation to strings, and these agree on every other string.
- QuoteSource.AuthorOf: a non-string `originator.name` (for example a number) is not modelled; the name is a string or absent.

=== FILE: favorites.dfy ===
/**
 The favorites collection as an ordered sequence of quotes, and the two
 sequence operations the widget applies to it: the membership test
 (`favorites.some(...)`) and the filter that drops every matching entry
 (`favorites.filter(...)`), with their properties.
 */
module Favorites {
  import opened Quotes

  /** Membership by structural equality, scanning from the front as
      `Array.prototype.some` does (src/components/QuoteMachine.tsx:22-24). */
  function IsFavorite(favs: seq<Quote>, q: Quote): (b: bool)
    ensures b <==> exists i :: 0 <= i < |favs| && Matches(favs[i], q)
    ensures b <==> q in favs
  {
    if |favs| == 0 then false
    else if Matches(favs[0], q) then true
    else
      assert forall i :: 1 <= i < |favs| ==> favs[i] == favs[1..][i - 1];
      IsFavorite(favs[1..], q)
  }

  /** Keeps, in order, every entry that does not match `q`
      (src/components/QuoteMachine.tsx:39-41 and 58-60). */
  function RemoveMatches(favs: seq<Quote>, q: Quote): (r: seq<Quote>)
    ensures |r| <= |favs|
    ensures !IsFavorite(r, q)
    ensures !IsFavorite(favs, q) ==> r == favs
    ensures IsFavorite(favs, q) ==> |r| < |favs|
  {
    if |favs| == 0 then []
    else if Matches(favs[0], q) then RemoveMatches(favs[1..], q)
    else [favs[0]] + RemoveMatches(favs[1..], q)
  }

  /** An entry survives the filter exactly when it was present and does not match. */
  lemma {:induction false} RemoveMatchesMembers(favs: seq<Quote>, q: Quote)
    ensures forall x :: x in RemoveMatches(favs, q) <==> x in favs && !Matches(x, q)
    decreases |favs|
  {
    if |favs| > 0 {
      RemoveMatchesMembers(favs[1..], q);
      assert favs == [favs[0]] + favs[1..];
    }
  }

  /** `sub` can be obtained from `s` by deleting entries, without reordering. */
  ghost predicate IsSubsequence(sub: seq<Quote>, s: seq<Quote>)
    decreases |s|
  {
    if |sub| == 0 then true
    else if |s| == 0 then false
    else if sub[0] == s[0] then IsSubsequence(sub[1..], s[1..])
    else IsSubsequence(sub, s[1..])
  }

  /** No two entries of the collection are structurally equal. */
  ghost predicate NoDuplicates(favs: seq<Quote>) {
    forall i, j :: 0 <= i < j < |favs| ==> !Matches(favs[i], favs[j])
  }

  /** The kept entries appear in their original relative order. */
  lemma {:induction false} RemoveMatchesIsSubsequence(favs: seq<Quote>, q: Quote)
    ensures IsSubsequence(RemoveMatches(favs, q), favs)
    decreases |favs|
  {
    if |favs| > 0 {
      RemoveMatchesIsSubsequence(favs[1..], q);
      var r := RemoveMatches(favs, q);
      if !Matches(favs[0], q) {
        assert r[0] == favs[0] && r[1..] == RemoveMatches(favs[1..], q);
      } else {
        SubsequenceOfTail(r, favs);
      }
    }
  }

  /** A subsequence of a sequence's tail is a subsequence of the sequence. */
  lemma {:induction false} SubsequenceOfTail(sub: seq<Quote>, s: seq<Quote>)
    requires |s| > 0
    requires IsSubsequence(sub, s[1..])
    ensures IsSubsequence(sub, s)
    decreases |s|, 0
  {
    if |sub| > 0 && sub[0] == s[0] {
      // the greedy match takes s[0]; the rest of sub must fit in s[1..]
      SubsequenceDropHead(sub, s[1..]);
    }
  }

  /** Dropping the first entry of a subsequence keeps it a subsequence. */
  lemma {:induction false} SubsequenceDropHead(sub: seq<Quote>, s: seq<Quote>)
    requires |sub| > 0
    requires IsSubsequence(sub, s)
    ensures IsSubsequence(sub[1..], s)
    decreases |s|, 1
  {
    if |s| > 0 {
      if sub[0] == s[0] {
        SubsequenceOfTail(sub[1..], s);
      } else {
        SubsequenceDropHead(sub, s[1..]);
        SubsequenceOfTail(sub[1..], s);
      }
    }
  }

  /** Filtering removes every copy of `q` and keeps every copy of anything else:
      together with the subsequence lemma this pins the result down exactly. */
  lemma {:induction false} RemoveMatchesCounts(favs: seq<Quote>, q: Quote)
    ensures forall x :: multiset(RemoveMatches(favs, q))[x]
                        == if Matches(x, q) then 0 else multiset(favs)[x]
    decreases |favs|
  {
    if |favs| > 0 {
      RemoveMatchesCounts(favs[1..], q);
      assert favs == [favs[0]] + favs[1..];
      assert multiset(favs) == multiset{favs[0]} + multiset(favs[1..]);
    }
  }

  /** Filtering distributes over concatenation. */
  lemma {:induction false} RemoveMatchesAppend(a: seq<Quote>, b: seq<Quote>, q: Quote)
    ensures RemoveMatches(a + b, q) == RemoveMatches(a, q) + RemoveMatches(b, q)
    decreases |a|
  {
    if |a| > 0 {
      var ab := a + b;
      assert ab[0] == a[0];
      assert ab[1..] == a[1..] + b;
      RemoveMatchesAppend(a[1..], b, q);
      if Matches(a[0], q) {
        calc {
          RemoveMatches(ab, q);
          RemoveMatches(ab[1..], q);
          RemoveMatches(a[1..], q) + RemoveMatches(b, q);
          RemoveMatches(a, q) + RemoveMatches(b, q);
        }
      } else {
        calc {
          RemoveMatches(ab, q);
          [a[0]] + RemoveMatches(ab[1..], q);
          [a[0]] + (RemoveMatches(a[1..], q) + RemoveMatches(b, q));
          ([a[0]] + RemoveMatches(a[1..], q)) + RemoveMatches(b, q);
          RemoveMatches(a, q) + RemoveMatches(b, q);
        }
      }
    } else {
      assert a + b == b;
    }
  }

  /** Filtering cannot introduce duplicates. */
  lemma {:induction false} RemoveMatchesKeepsNoDuplicates(favs: seq<Quote>, q: Quote)
    requires NoDuplicates(favs)
    ensures NoDuplicates(RemoveMatches(favs, q))
    decreases |favs|
  {
    if |favs| > 0 {
      var tail := favs[1..];
      assert NoDuplicates(tail) by {
        forall i, j | 0 <= i < j < |tail|
          ensures !Matches(tail[i], tail[j])
        {
          assert tail[i] == favs[i + 1] && tail[j] == favs[j + 1];
        }
      }
      RemoveMatchesKeepsNoDuplicates(tail, q);
      if !Matches(favs[0], q) {
        var rest := RemoveMatches(tail, q);
        var r := [favs[0]] + rest;
        assert !IsFavorite(tail, favs[0]) by {
          forall i | 0 <= i < |tail|
            ensures !Matches(tail[i], favs[0])
          {
            assert tail[i] == favs[i + 1];
          }
        }
        assert favs[0] !in rest by {
          RemoveMatchesMembers(tail, q);
        }
        forall i, j | 0 <= i < j < |r|
          ensures !Matches(r[i], r[j])
        {
          if i == 0 {
            assert r[j] == rest[j - 1] && r[j] in rest;
          } else {
            assert r[i] == rest[i - 1] && r[j] == rest[j - 1];
          }
        }
      }
    }
  }

  /** Appending a quote that is not yet present cannot introduce duplicates. */
  lemma AppendKeepsNoDuplicates(favs: seq<Quote>, q: Quote)
    requires NoDuplicates(favs)
    requires !IsFavorite(favs, q)
    ensures NoDuplicates(favs + [q])
  {
    var r := favs + [q];
    forall i, j | 0 <= i < j < |r|
      ensures !Matches(r[i], r[j])
    {
      if j == |favs| {
        assert r[i] == favs[i];
      } else {
        assert r[i] == favs[i] && r[j] == favs[j];
      }
    }
  }

  /** In a duplicate-free collection a quote occurs at most once. */
  lemma {:induction false} NoDuplicatesCount(favs: seq<Quote>, q: Quote)
    requires NoDuplicates(favs)
    ensures multiset(favs)[q] == if IsFavorite(favs, q) then 1 else 0
    decreases |favs|
  {
    if |favs| > 0 {
      var tail := favs[1..];
      assert NoDuplicates(tail) by {
        forall i, j | 0 <= i < j < |tail|
          ensures !Matches(tail[i], tail[j])
        {
          assert tail[i] == favs[i + 1] && tail[j] == favs[j + 1];
        }
      }
      NoDuplicatesCount(tail, q);
      assert favs == [favs[0]] + tail;
      assert multiset(favs) == multiset{favs[0]} + multiset(tail);
      if favs[0] == q {
        assert !IsFavorite(tail, q) by {
          forall i | 0 <= i < |tail|
            ensures !Matches(tail[i], q)
          {
            assert tail[i] == favs[i + 1];
          }
        }
      }
    }
  }
}

=== FILE: quote_machine.dfy ===
/**
 The favorites-and-notification state of the quote widget
 (src/components/QuoteMachine.tsx) as a record updated by pure transitions.
 The quote currently on display is passed to each action as a parameter; the
 browser's storage slot "favorites" is a field of the record, holding the last
 collection written (serialisation is abstracted away).
 */
module QuoteMachine {
  import opened Quotes
  import opened Favorites

  /** The notification shown in the corner: its text and whether it is shown. */
  datatype Toast = Toast(message: string, visible: bool)

  /** The widget's own state: the in-memory favorites, the persisted slot
      (`None` when the key has never been written) and the toast. */
  datatype State = State(favorites: seq<Quote>, storage: Option<seq<Quote>>, toast: Toast)

  /** What copying produces: the new state and the string put on the clipboard. */
  datatype Copied = Copied(state: State, clipboard: string)

  /** The user actions that touch this state. */
  datatype Action =
    | ToggleCurrent(current: Quote)
    | RemoveFromPanel(fav: Quote)
    | CopyCurrent(current: Quote)
    | CloseToast

  const AddedMessage: string := "Added to favorites"
  const RemovedMessage: string := "Removed from favorites"
  const CopiedMessage: string := "Quote copied!"

  /** Reading the slot at start-up: an absent slot is the empty collection. */
  function LoadFavorites(slot: Option<seq<Quote>>): (favs: seq<Quote>)
    ensures slot.None? ==> favs == []
    ensures slot.Some? ==> favs == slot.value
  {
    match slot
    case None => []
    case Some(saved) => saved
  }

  /** The in-memory collection is what a fresh start would load from storage. */
  ghost predicate Synced(s: State) {
    LoadFavorites(s.storage) == s.favorites
  }

  /** Mounting the widget: favorites come from storage, no toast is shown
      (src/components/QuoteMachine.tsx:13-20). Nothing is written. */
  function Init(slot: Option<seq<Quote>>): (s: State)
    ensures s.storage == slot
    ensures slot.None? ==> s.favorites == []
    ensures slot.Some? ==> s.favorites == slot.value
    ensures s.toast == Toast("", false)
    ensures Synced(s)
  {
    State(LoadFavorites(slot), slot, Toast("", false))
  }

  /** The star button: drop every entry matching the displayed quote if there
      is one, otherwise append it; persist the whole list and show a toast
      (src/components/QuoteMachine.tsx:36-50). */
  function ToggleFavorite(s: State, current: Quote): (r: State)
    ensures r.storage == Some(r.favorites)
    ensures r.toast.visible
    ensures !IsFavorite(s.favorites, current) ==>
              && r.favorites == s.favorites + [current]
              && r.favorites[..|s.favorites|] == s.favorites
              && |r.favorites| == |s.favorites| + 1
              && IsFavorite(r.favorites, current)
              && r.toast.message == AddedMessage
    ensures IsFavorite(s.favorites, current) ==>
              && !IsFavorite(r.favorites, current)
              && |r.favorites| < |s.favorites|
              && (forall x :: x in s.favorites && !Matches(x, current) ==> x in r.favorites)
              && (forall x :: x in r.favorites ==> x in s.favorites)
              && IsSubsequence(r.favorites, s.favorites)
              && (forall x :: multiset(r.favorites)[x]
                               == if Matches(x, current) then 0 else multiset(s.favorites)[x])
              && r.toast.message == RemovedMessage
  {
    RemoveMatchesMembers(s.favorites, current);
    RemoveMatchesIsSubsequence(s.favorites, current);
    RemoveMatchesCounts(s.favorites, current);
    var newFavorites :=
      if IsFavorite(s.favorites, current) then RemoveMatches(s.favorites, current)
      else s.favorites + [Quote(current.text, current.author)];
    var message := if IsFavorite(s.favorites, current) then RemovedMessage else AddedMessage;
    State(newFavorites, Some(newFavorites), Toast(message, true))
  }

  /** The remove button of a favorites-panel entry: drop every matching entry,
      persist, and always announce a removal (src/components/QuoteMachine.tsx:57-65). */
  function RemoveFavorite(s: State, fav: Quote): (r: State)
    ensures r.storage == Some(r.favorites)
    ensures r.toast == Toast(RemovedMessage, true)
    ensures !IsFavorite(r.favorites, fav)
    ensures forall x :: x in r.favorites ==> x in s.favorites
    ensures forall x :: x in s.favorites && !Matches(x, fav) ==> x in r.favorites
    ensures IsSubsequence(r.favorites, s.favorites)
    ensures forall x :: multiset(r.favorites)[x]
                        == if Matches(x, fav) then 0 else multiset(s.favorites)[x]
    ensures !IsFavorite(s.favorites, fav) ==> r.favorites == s.favorites
  {
    RemoveMatchesMembers(s.favorites, fav);
    RemoveMatchesIsSubsequence(s.favorites, fav);
    RemoveMatchesCounts(s.favorites, fav);
    var newFavorites := RemoveMatches(s.favorites, fav);
    State(newFavorites, Some(newFavorites), Toast(RemovedMessage, true))
  }

  /** The copy button: the clipboard write is given the same attribution line
      the share link encodes, and a toast confirms it whatever the write's
      outcome; favorites and storage are untouched
      (src/components/QuoteMachine.tsx:30-34). */
  function CopyToClipboard(s: State, current: Quote): (r: Copied)
    ensures r.clipboard == Attribution(current)
    ensures r.state.favorites == s.favorites && r.state.storage == s.storage
    ensures r.state.toast == Toast(CopiedMessage, true)
  {
    var line := "\"" + Rendered(current.text) + "\"" + Separator + current.author;
    Copied(s.(toast := Toast(CopiedMessage, true)), line)
  }

  /** Closing the toast, by its close button or by the dismissal timer: it
      disappears and nothing else changes (src/components/QuoteMachine.tsx:67-72, 220). */
  function DismissToast(s: State): (r: State)
    ensures !r.toast.visible
    ensures r.toast.message == s.toast.message
    ensures r.favorites == s.favorites && r.storage == s.storage
  {
    s.(toast := s.toast.(visible := false))
  }

  /** Whether an action rewrites the favorites list and its storage slot. */
  predicate Writes(a: Action) {
    a.ToggleCurrent? || a.RemoveFromPanel?
  }

  /** One user action. Toggling and removing write the new list to storage;
      copying and closing the toast leave list and storage as they were. */
  function Step(s: State, a: Action): (r: State)
    ensures Writes(a) ==> r.storage == Some(r.favorites)
    ensures !Writes(a) ==> r.favorites == s.favorites && r.storage == s.storage
  {
    match a
    case ToggleCurrent(q) => ToggleFavorite(s, q)
    case RemoveFromPanel(f) => RemoveFavorite(s, f)
    case CopyCurrent(q) => CopyToClipboard(s, q).state
    case CloseToast => DismissToast(s)
  }

  /** A session: the actions in order. A session without a writing action
      leaves list and storage alone; after any write, storage holds the list. */
  function Run(s: State, actions: seq<Action>): (r: State)
    ensures (forall k :: 0 <= k < |actions| ==> !Writes(actions[k])) ==>
              r.favorites == s.favorites && r.storage == s.storage
    ensures (exists k :: 0 <= k < |actions| && Writes(actions[k])) ==>
              r.storage == Some(r.favorites)
    decreases |actions|
  {
    if |actions| == 0 then s
    else
      assert forall k :: 1 <= k < |actions| ==> actions[1..][k - 1] == actions[k];
      Run(Step(s, actions[0]), actions[1..])
  }

  /** Every single action keeps memory and storage in step, and keeps the
      collection free of duplicates. */
  lemma StepPreserves(s: State, a: Action)
    ensures Synced(s) ==> Synced(Step(s, a))
    ensures NoDuplicates(s.favorites) ==> NoDuplicates(Step(s, a).favorites)
  {
    match a
    case ToggleCurrent(q) =>
      if NoDuplicates(s.favorites) { ToggleKeepsNoDuplicates(s, q); }
    case RemoveFromPanel(f) =>
      if NoDuplicates(s.favorites) { RemoveMatchesKeepsNoDuplicates(s.favorites, f); }
    case CopyCurrent(q) =>
    case CloseToast =>
  }

  /** Toggling never creates a duplicate. */
  lemma ToggleKeepsNoDuplicates(s: State, q: Quote)
    requires NoDuplicates(s.favorites)
    ensures NoDuplicates(ToggleFavorite(s, q).favorites)
  {
    if IsFavorite(s.favorites, q) {
      RemoveMatchesKeepsNoDuplicates(s.favorites, q);
    } else {
      AppendKeepsNoDuplicates(s.favorites, q);
    }
  }

  /** Removing from the panel never creates a duplicate. */
  lemma RemoveKeepsNoDuplicates(s: State, f: Quote)
    requires NoDuplicates(s.favorites)
    ensures NoDuplicates(RemoveFavorite(s, f).favorites)
  {
    RemoveMatchesKeepsNoDuplicates(s.favorites, f);
  }

  /** Over a whole session, memory and storage stay in step and no duplicate appears. */
  lemma {:induction false} RunPreserves(s: State, actions: seq<Action>)
    ensures Synced(s) ==> Synced(Run(s, actions))
    ensures NoDuplicates(s.favorites) ==> NoDuplicates(Run(s, actions).favorites)
    decreases |actions|
  {
    if |actions| > 0 {
      StepPreserves(s, actions[0]);
      RunPreserves(Step(s, actions[0]), actions[1..]);
    }
  }

  /** Reloading the page after any session restores exactly the collection the
      session ended with, in order. */
  lemma ReloadRestoresFavorites(slot: Option<seq<Quote>>, actions: seq<Action>)
    ensures Init(Run(Init(slot), actions).storage).favorites == Run(Init(slot), actions).favorites
  {
    RunPreserves(Init(slot), actions);
  }

  /** Toggling a quote that is not a favorite twice gives back the original
      collection, and storage holds it again. */
  lemma ToggleTwiceRestores(s: State, q: Quote)
    requires !IsFavorite(s.favorites, q)
    ensures ToggleFavorite(ToggleFavorite(s, q), q).favorites == s.favorites
    ensures ToggleFavorite(ToggleFavorite(s, q), q).storage == Some(s.favorites)
  {
    var once := ToggleFavorite(s, q);
    assert once.favorites == s.favorites + [q];
    RemoveMatchesAppend(s.favorites, [q], q);
    assert RemoveMatches([q], q) == [];
  }

  /** Starting from a duplicate-free collection that already holds `q`, toggling
      twice keeps the same entries but moves `q` to the end. */
  lemma ToggleTwiceFromFavorite(s: State, q: Quote)
    requires NoDuplicates(s.favorites)
    requires IsFavorite(s.favorites, q)
    ensures ToggleFavorite(ToggleFavorite(s, q), q).favorites == RemoveMatches(s.favorites, q) + [q]
    ensures multiset(ToggleFavorite(ToggleFavorite(s, q), q).favorites) == multiset(s.favorites)
  {
    var twice := ToggleFavorite(ToggleFavorite(s, q), q).favorites;
    var removed := RemoveMatches(s.favorites, q);
    RemoveMatchesCounts(s.favorites, q);
    NoDuplicatesCount(s.favorites, q);
    assert twice == removed + [q];
    assert multiset(twice) == multiset(s.favorites);
  }

  /** In a duplicate-free collection, un-toggling a favorite removes exactly
      one entry: the converse of the append branch's "grows by one". */
  lemma ToggleRemovesExactlyOne(s: State, q: Quote)
    requires NoDuplicates(s.favorites)
    requires IsFavorite(s.favorites, q)
    ensures |ToggleFavorite(s, q).favorites| == |s.favorites| - 1
  {
    var removed := RemoveMatches(s.favorites, q);
    RemoveMatchesCounts(s.favorites, q);
    NoDuplicatesCount(s.favorites, q);
    assert multiset(removed) + multiset{q} == multiset(s.favorites);
    assert |multiset(removed)| + 1 == |multiset(s.favorites)|;
  }

  /** Without the no-duplicates convention the filter removes every copy:
      toggling q in [q, q] empties the collection, and a second toggle gives
      [q], not the original two copies. */
  lemma ToggleDropsEveryCopy()
    ensures var q := Quote(Some("Happiness depends upon ourselves."), "Aristotle");
            ToggleFavorite(Init(Some([q, q])), q).favorites == []
    ensures var q := Quote(Some("Happiness depends upon ourselves."), "Aristotle");
            ToggleFavorite(ToggleFavorite(Init(Some([q, q])), q), q).favorites == [q]
  {
    var q := Quote(Some("Happiness depends upon ourselves."), "Aristotle");
    assert [q, q][1..] == [q];
    assert [q][1..] == [];
  }

  /** So the double toggle does not restore every collection: [q, p] becomes [p, q]. */
  lemma ToggleTwiceCanReorder()
    ensures var q := Quote(Some("Be yourself; everyone else is already taken."), "Oscar Wilde");
            var p := Quote(Some("So many books, so little time."), "Frank Zappa");
            var s := Init(Some([q, p]));
            ToggleFavorite(ToggleFavorite(s, q), q).favorites == [p, q]
  {
    var q := Quote(Some("Be yourself; everyone else is already taken."), "Oscar Wilde");
    var p := Quote(Some("So many books, so little time."), "Frank Zappa");
    assert !Matches(p, q);
    assert [q, p][1..] == [p];
  }
}

=== FILE: quote_source.dfy ===
/**
 Quote acquisition (src/hooks/useQuote.ts): the embedded fallback corpus, the
 accent-colour palette, the initial state, and one `fetchQuote` call as a pure
 resolver. The network is replaced by the `Response` it produced, and each
 `Math.floor(Math.random() * len)` by an index the caller picks below `len`.
 */
module QuoteSource {
  import opened Quotes

  /** The 15 quotes shown when the provider cannot be used (src/hooks/useQuote.ts:8-24). */
  const FallbackQuotes: seq<Quote> := [
    Quote(Some("Be yourself; everyone else is already taken."), "Oscar Wilde"),
    Quote(Some("Two things are infinite: the universe and human stupidity; and I'm not sure about the universe."), "Albert Einstein"),
    Quote(Some("So many books, so little time."), "Frank Zappa"),
    Quote(Some("A room without books is like a body without a soul."), "Marcus Tullius Cicero"),
    Quote(Some("Be the change that you wish to see in the world."), "Mahatma Gandhi"),
    Quote(Some("In three words I can sum up everything I've learned about life: it goes on."), "Robert Frost"),
    Quote(Some("If you tell the truth, you don't have to remember anything."), "Mark Twain"),
    Quote(Some("To live is the rarest thing in the world. Most people exist, that is all."), "Oscar Wilde"),
    Quote(Some("Without music, life would be a mistake."), "Friedrich Nietzsche"),
    Quote(Some("We accept the love we think we deserve."), "Stephen Chbosky"),
    Quote(Some("Imperfection is beauty, madness is genius and it's better to be absolutely ridiculous than absolutely boring."), "Marilyn Monroe"),
    Quote(Some("Life is what happens to us while we are making other plans."), "Allen Saunders"),
    Quote(Some("Do what you can, with what you have, where you are."), "Theodore Roosevelt"),
    Quote(Some("Success is not final, failure is not fatal: It is the courage to continue that counts."), "Winston Churchill"),
    Quote(Some("Happiness depends upon ourselves."), "Aristotle")
  ]

  /** The 12 accent colours (src/hooks/useQuote.ts:28-32). */
  const Colors: seq<string> := [
    "#16a085", "#27ae60", "#2c3e50", "#f39c12",
    "#e74c3c", "#9b59b6", "#FB6964", "#342224",
    "#472E32", "#BDBB99", "#77B1A9", "#73A857"
  ]

  /** The author used when the provider names none. */
  const UnknownAuthor: string := "Unknown"

  /** What the provider call came to. `Ok` is a 2xx response whose body parsed
      to a non-null value; its `content` and `originator.name` fields may be
      missing. A body that parses to a string, a number or an array has neither
      field and is `Ok(None, None)`. `NotOk` is any other status. `Thrown` is a
      network error, a body that did not parse, or a body that parsed to `null`
      (reading `data.content` then throws, src/hooks/useQuote.ts:51). */
  datatype Response =
    | NotOk
    | Thrown
    | Ok(content: Option<string>, originatorName: Option<string>)

  /** What the hook exposes, plus the page-wide text colour it sets as a side
      effect (`document.body.style.color`; `None` until the first call). */
  datatype QuoteState = QuoteState(quote: Quote, color: string, ambient: Option<string>)

  /** A colour index the caller may pick: `Math.floor(Math.random() * 12)`. */
  predicate ValidColorIndex(j: nat) {
    j < |Colors|
  }

  /** A corpus index the caller may pick: `Math.floor(Math.random() * 15)`. */
  predicate ValidQuoteIndex(i: nat) {
    i < |FallbackQuotes|
  }

  /** The hook's state before any fetch completes: the first corpus entry in
      the first colour (src/hooks/useQuote.ts:27, 33). */
  function InitialState(): (s: QuoteState)
    ensures s.quote in FallbackQuotes && s.quote == FallbackQuotes[0]
    ensures s.color in Colors && s.color == Colors[0]
    ensures s.ambient.None?
  {
    QuoteState(FallbackQuotes[0], Colors[0], None)
  }

  /** `data.originator?.name || 'Unknown'`: JavaScript's `||` replaces a
      missing name and also the empty string, so the author is never empty
      (src/hooks/useQuote.ts:52). */
  function AuthorOf(name: Option<string>): (author: string)
    ensures author != ""
    ensures author == UnknownAuthor <==>
              (name.None? || name.value == "" || name.value == UnknownAuthor)
    ensures author != UnknownAuthor ==> name == Some(author)
  {
    match name
    case Some(n) => if n == "" then UnknownAuthor else n
    case None => UnknownAuthor
  }

  /** The quote a successful body yields: its content verbatim (even when
      absent) and the defaulted author (src/hooks/useQuote.ts:50-53). */
  function QuoteOfBody(content: Option<string>, originatorName: Option<string>): (q: Quote)
    ensures q.text == content
    ensures q.author == AuthorOf(originatorName)
    ensures q.author != ""
  {
    Quote(content, AuthorOf(originatorName))
  }

  /** One completed `fetchQuote` call. Every outcome replaces both the quote
      and the colour and applies the colour to the page: no error reaches the
      caller (src/hooks/useQuote.ts:35-69). */
  function FetchQuote(s: QuoteState, response: Response, quoteIndex: nat, colorIndex: nat): (r: QuoteState)
    requires ValidQuoteIndex(quoteIndex) && ValidColorIndex(colorIndex)
    ensures r.color in Colors && r.color == Colors[colorIndex]
    ensures r.ambient == Some(r.color)
    ensures response.Ok? ==> r.quote == QuoteOfBody(response.content, response.originatorName)
    ensures !response.Ok? ==> r.quote in FallbackQuotes && r.quote == FallbackQuotes[quoteIndex]
  {
    var newColor := Colors[colorIndex];
    match response
    case Ok(content, name) =>
      QuoteState(QuoteOfBody(content, name), newColor, Some(newColor))
    case _ =>
      QuoteState(FallbackQuotes[quoteIndex], newColor, Some(newColor))
  }

  /** Every corpus entry has a text and a non-empty author; the corpus has 15
      entries and the palette 12 colours, each written as `#` and six digits. */
  lemma FallbackWellFormed()
    ensures |FallbackQuotes| == 15 && |Colors| == 12
    ensures forall q :: q in FallbackQuotes ==> q.text.Some? && q.author != ""
    ensures forall c :: c in Colors ==> |c| == 7 && c[0] == '#'
  {
  }

  /** A state the hook can be in: its colour is from the palette, the page
      shows the same colour once any fetch has completed, and the quote has a
      non-empty author. */
  ghost predicate Valid(s: QuoteState) {
    && s.color in Colors
    && (s.ambient.Some? ==> s.ambient.value == s.color)
    && s.quote.author != ""
  }

  /** The hook starts in a valid state. */
  lemma InitialStateValid()
    ensures Valid(InitialState())
  {
    FallbackWellFormed();
  }

  /** Every completed fetch leaves a valid state, whatever the response and
      whatever the previous state. */
  lemma FetchKeepsValid(s: QuoteState, response: Response, i: nat, j: nat)
    requires ValidQuoteIndex(i) && ValidColorIndex(j)
    ensures Valid(FetchQuote(s, response, i, j))
  {
    FallbackWellFormed();
  }

  /** A non-2xx status and a thrown error take the same branch. */
  lemma NotOkIsLikeThrown(s: QuoteState, i: nat, j: nat)
    requires ValidQuoteIndex(i) && ValidColorIndex(j)
    ensures FetchQuote(s, NotOk, i, j) == FetchQuote(s, Thrown, i, j)
  {
  }

  /** The previous state plays no part in the result: each fetch overwrites it all. */
  lemma FetchForgetsPrevious(s: QuoteState, t: QuoteState, response: Response, i: nat, j: nat)
    requires ValidQuoteIndex(i) && ValidColorIndex(j)
    ensures FetchQuote(s, response, i, j) == FetchQuote(t, response, i, j)
  {
  }

  /** Each corpus entry and each colour is reachable on the failure path. */
  lemma FallbackCoversCorpus(s: QuoteState, q: Quote, c: string)
    requires q in FallbackQuotes && c in Colors
    ensures exists i: nat, j: nat :: ValidQuoteIndex(i) && ValidColorIndex(j)
              && FetchQuote(s, Thrown, i, j).quote == q && FetchQuote(s, Thrown, i, j).color == c
  {
    var i :| 0 <= i < |FallbackQuotes| && FallbackQuotes[i] == q;
    var j :| 0 <= j < |Colors| && Colors[j] == c;
    assert FetchQuote(s, Thrown, i, j).quote == q;
  }

  /** A 2xx body without `content` is not rerouted to the corpus: the displayed
      quote has no text and is not a corpus entry. */
  lemma MissingContentNotRerouted(s: QuoteState, name: Option<string>, i: nat, j: nat)
    requires ValidQuoteIndex(i) && ValidColorIndex(j)
    ensures FetchQuote(s, Ok(None, name), i, j).quote.text.None?
    ensures FetchQuote(s, Ok(None, name), i, j).quote !in FallbackQuotes
  {
    FallbackWellFormed();
  }

  /** The examples of a successful body: a named author is kept, a missing
      originator becomes "Unknown". */
  lemma SuccessExamples(s: QuoteState, i: nat, j: nat)
    requires ValidQuoteIndex(i) && ValidColorIndex(j)
    ensures FetchQuote(s, Ok(Some("Hello"), Some("Alice")), i, j).quote == Quote(Some("Hello"), "Alice")
    ensures FetchQuote(s, Ok(Some("Hi"), None), i, j).quote == Quote(Some("Hi"), "Unknown")
    ensures FetchQuote(s, Ok(Some("Hi"), Some("")), i, j).quote == Quote(Some("Hi"), "Unknown")
  {
  }
}

=== FILE: quotes.dfy ===
/**
 The value types shared by the quote widget: the `Quote` record, its structural
 equality, and the one-line attribution string built from it for sharing and
 copying.
 */
module Quotes {

  /** An optional value. In this model `None` stands for JavaScript's
      `undefined`: a field missing from a parsed response body. */
  datatype Option<T> = None | Some(value: T)

  /** A quote is a value: two quotes are "the same" when both fields agree.
      `text` is optional because a successful response without a `content`
      field puts `undefined` into the displayed quote (src/hooks/useQuote.ts:50-51). */
  datatype Quote = Quote(text: Option<string>, author: string)

  /** The structural equality the widget uses everywhere it compares quotes:
      `a.text === b.text && a.author === b.author`. It coincides with equality
      of the two quote values, so it is an equivalence relation. */
  function Matches(a: Quote, b: Quote): (same: bool)
    ensures same <==> a == b
  {
    a.text == b.text && a.author == b.author
  }

  /** How a template literal renders a quote's text: a present string as
      itself, `undefined` as the nine letters "undefined". */
  function Rendered(text: Option<string>): (s: string)
    ensures text.Some? ==> s == text.value
    ensures text.None? ==> s == "undefined"
  {
    match text
    case Some(t) => t
    case None => "undefined"
  }

  /** The separator between the closing quotation mark and the author:
      a space, an em dash (U+2014) and a space. */
  const Separator: string := " \U{2014} "

  /** The attribution line `"<text>" — <author>` that the share-on-X link
      encodes (src/components/QuoteMachine.tsx:26-28). The text can be read
      back from just after the opening mark, the author from the end. */
  function Attribution(q: Quote): (line: string)
    ensures |line| == |Rendered(q.text)| + |q.author| + 5
    ensures line[0] == '"'
    ensures line[1..|Rendered(q.text)| + 1] == Rendered(q.text)
    ensures line[|Rendered(q.text)| + 1] == '"'
    ensures line[|Rendered(q.text)| + 2..|Rendered(q.text)| + 5] == Separator
    ensures line[|line| - |q.author|..] == q.author
  {
    "\"" + Rendered(q.text) + "\"" + Separator + q.author
  }
}
